=== FILE: README.md ===
# Workout-planner sheet exports, modelled in Dafny

This project models the data-transformation core of a Google Apps Script
that turns spreadsheet data into bilingual (English/Tamil) JSON for a
workout-planner app, and proves properties of that model. The script lives
in `generate-master-data.js`. The model covers five pure transforms that
the script mixes with spreadsheet and Drive I/O. The master-data, equipment
and weekly-plan transforms take a snapshot of a sheet (`seq<seq<Cell>>`) and
the single cells they read, and return values or an error. The two exercise
queries take sheet rows too. They read each row through `ExerciseRowOf` at
columns 0 (id), 3 (popularity), 4 (level), 6 (equipment) and 15 (muscle
groups), and return ids or a map, with no error case.

- **Master data** (`MasterData`, `master_data.dfy`). A header row whose
  names may end in `(en)` or `(ta)` steers each data row into an English
  and a Tamil record (`map<string, Value>`). `primaryMuscles`,
  `secondaryMuscles` and `images` are comma-split into both records. A
  tagged column goes to its own locale only, under the name with the tag
  removed by the script's regular expression (`Detag`); it is JSON-parsed
  when it starts with `[`, and comma-split otherwise. Any other column is
  copied verbatim into both records. `RouteKey` is the header-only routing
  table that the row-level lemmas compare the records against.
- **Equipment** (`Equipment`). Two catalogue records per row. They share
  id, name, thumbnail and the `", "`-split exercise list, and each has its
  own zero-or-one-element video list.
- **Weekly plan** (`WeeklyPlan`). Plan-wide fields come from row 1, and
  three `;`-split, deduplicated sets come from every row below the header.
  Exactly six day entries come from rows 1 to 6.
- **Exercise filter and beginner map** (`ExerciseFilter`). These are the
  planner's queries over the data sheet: the candidate ids for the
  selected muscle groups, and the ids of beginner exercises grouped by
  muscle group.

Supporting modules model the JavaScript built-ins the script relies on.
`JsValues` holds cells, truthiness, values, errors and the "map with abort"
loop. `JsStrings` holds `indexOf`, `includes`, `split`, `join`, `trim`,
`startsWith` and `endsWith`. `JsArrays` holds `Array.from(new Set(..))` and
`filter`. `Locales` holds the English/Tamil pair.

Cells are `Str(s) | Num(n) | Empty`, with JavaScript truthiness (`""`, `0`
and `Empty` are falsy). A blank sheet cell arrives as `Str("")`; `Empty` is
`undefined`, which is what indexing a row past its end gives. Calling `split`
or `replace` on a non-string throws a TypeError in the script. The model
returns this as `Err(NotAString(cell))`. A `JSON.parse` failure in the
`(en)` branch has no `try`, so it surfaces as `Err(JsonSyntax(text))`. In the
`(ta)` branch the script catches the failure and falls back to a comma
split. `JSON.parse` itself is a parameter of type
`string -> Option<seq<Value>>`. A text that starts with `[` and parses is
always an array, and arrays are truthy, so `value ? value : []` keeps it; a
null result cannot occur there.

A tagged column holding plain text is stored as a one-element list:
`"Push Up"` becomes `["Push Up"]` (`TaggedPlainField`). A malformed JSON text
in a `(en)` column makes the whole master-data export fail with
`Err(JsonSyntax(text))`. `AssemblePlan` requires at least seven sheet rows,
because the script reads rows 1 to 6 without checking the sheet's length.

## Model

| member | source | states |
|---|---|---|
| MasterData.FieldOf | generate-master-data.js:180-206 | A column is accepted exactly when its header is a string, any value to be split is a string, and a `(en)` JSON text parses. The records it writes and the key it uses are fixed by the header alone (`RouteKey`). The always-list check comes before the tag checks. Always-list values are the comma pieces, or `[]` when falsy. Untagged values are the cell, unchanged. Tagged values are always arrays: the parsed array, the comma pieces, or `[]`. A `(ta)` text that fails to parse falls back to the comma pieces. |
| MasterData.LocaleKeys | generate-master-data.js:180-206 | A record's keys are exactly the keys the routing table sends to that locale. A `(ta)` column never adds a key to the English record, and a `(en)` column never adds one to the Tamil record. |
| MasterData.LocaleValue | generate-master-data.js:172-208 | The value stored under a key is the one from the last column routed to that key in that locale. |
| MasterData.SharedFieldsAgree | generate-master-data.js:182-205 | An untagged or always-list column holds the same value in both records, unless a later column overwrites that key. |
| MasterData.LocalizeRow | generate-master-data.js:172-208 | A row exports exactly when every column's value is acceptable for its header (`RowAcceptable`). |
| MasterData.AssembleKeys | generate-master-data.js:172-208 | After the column loop, a record holds a key exactly when some column wrote that key to it. |
| MasterData.AssembleLastWriter | generate-master-data.js:172-208 | After the column loop, each key holds the value of the last column that wrote it. |
| MasterData.ShapeOf | generate-master-data.js:182-203 | The branch a header takes, in the script's order. Exactly the three names `primaryMuscles`, `secondaryMuscles` and `images` take the always-list branch; a tagged variant such as `images(ta)` is an ordinary tagged column. A tagged branch is taken only for a header ending in that tag, and a header ending in `(en)` takes the English branch. A header takes the untagged branch exactly when it is not a list-field name and ends in neither tag. |
| MasterData.Detag | generate-master-data.js:180 | Removing tags never lengthens a header, and a header it does not shorten comes back unchanged. What it removes is stated by the lemmas below. |
| MasterData.IsTagLiterals | generate-master-data.js:180 | The tag test accepts exactly the two alternatives of the pattern, `(en)` and `(ta)`. |
| MasterData.DetagTagFree | generate-master-data.js:180 | Removing tags leaves a header that contains neither `(en)` nor `(ta)` unchanged. |
| MasterData.DetagPlainName | generate-master-data.js:180 | A name without `(` that does not end in white space, followed by `(en)` or `(ta)`, loses exactly the tag. |
| MasterData.DetagPlainPrefix | generate-master-data.js:180 | A name without `(` that does not end in white space passes through tag removal unchanged, whatever text follows it; only the text after it can lose matches. |
| MasterData.DetagSpacedTag | generate-master-data.js:180 | A plain name followed by a tag with white space on either side, as in `name (en)`, loses the tag together with both white-space runs: both `\s*` of the pattern are part of the match. |
| MasterData.TaggedPlainField | generate-master-data.js:185-201 | A column such as `name(en)` holding comma-free plain text stores the one-element list `[text]` under `name`, in its own locale only. |
| MasterData.ExportMasterData | generate-master-data.js:167-212 | The export succeeds exactly when every column of every data row is acceptable. Both outputs then have one record per data row, and record k is row k+1's English or Tamil record. The header row is never emitted. |
| Equipment.EquipmentRecords | generate-master-data.js:73-91 | The two records agree on id, name, thumbnail (columns 0-2) and the exercise list. The exercise list is the `", "` pieces of column 3, or `[]` when falsy. A truthy non-string column 3 fails. Videos come from column 4 (English) and column 5 (Tamil). |
| Equipment.VideoList | generate-master-data.js:74-75 | A video list has at most one entry. It is `[cell]` exactly when the cell is truthy, and `[]` exactly when it is falsy. |
| Equipment.ExercisesRoundTrip | generate-master-data.js:73 | Joining the exercise list with `", "` gives back the exercise cell's text, or `""` for a falsy cell. |
| Equipment.ExportEquipment | generate-master-data.js:70-92 | The export succeeds exactly when every data row does. Both outputs then have one record per data row, in row order. |
| WeeklyPlan.FlatSplit | generate-master-data.js:32 | The flattened pieces exist exactly when the column holds a string in every row. A string is among them exactly when it is a piece of some row's cell. |
| WeeklyPlan.DistinctPieces | generate-master-data.js:32-35 | The set of a column has no duplicates. It contains exactly the `;` pieces of that column over the given rows. |
| WeeklyPlan.PlanSet | generate-master-data.js:32-35 | One of the plan's three sets exists exactly when the column holds a string in every row below the header. It then has no duplicates and holds exactly the `;` pieces of that column over those rows. |
| WeeklyPlan.PlanDays | generate-master-data.js:41-53 | The day list exists exactly when columns 1 and 2 hold strings in rows 1 to 6. It then has exactly six entries, and entry i-1 is the day built from row i. |
| WeeklyPlan.DayFrom | generate-master-data.js:42-51 | A day entry exists exactly when columns 1 and 2 hold strings. Its muscle groups are the `;` pieces of column 1 and its exercise ids are the `", "` pieces of column 2. Its exercises list is empty. Day, sets, reps and rest are copied from columns 0, 3, 4 and 5. |
| WeeklyPlan.DatePart | generate-master-data.js:25 | The created date is the longest prefix of the timestamp that contains no `T`. |
| WeeklyPlan.AssemblePlan | generate-master-data.js:27-53 | The plan exists exactly when the split columns hold strings. It then has exactly six days, and day i-1 is built from row i. Goal, level, days per week and duration come from row 1. Equipment, focus areas and preferences are duplicate-free and hold exactly the `;` pieces of columns 9, 10 and 12 over rows 1 to the end. The coach and the created date come from the parameters. |
| ExerciseFilter.SelectedGroups | generate-master-data.js:323 | The selected groups are exactly the non-empty trimmed comma pieces of the selection cell. |
| ExerciseFilter.EmptySelectionMatchesNothing | generate-master-data.js:326-329 | With no selected group no row passes the filter, so the early return gives the same `[]` the filter would. |
| ExerciseFilter.ExerciseRowOf | generate-master-data.js:344-347 | A sheet row is readable exactly when column 3 holds a number and column 15 holds text or is falsy. The read row carries the cells of columns 0, 3, 4, 6 and 15 unchanged. |
| ExerciseFilter.MatchesColumns | generate-master-data.js:343-361 | The row filter (`Matches`), read on a sheet row, has four conditions. Column 15 is a non-empty text with a trimmed comma piece among the selected groups. Column 3 is at least the minimum popularity. Column 4 is strictly equal to the required level. The text of column 6 occurs in the equipment text. |
| ExerciseFilter.GetItems | generate-master-data.js:337-363 | An empty selection gives `[]`. Otherwise the loop's result equals the reference filter-then-map (`FilterMap`, whose kept positions `FilterMapPositions` pins down). It holds the column-0 ids of exactly the rows that pass the filter, in sheet order. |
| ExerciseFilter.BeginnerMap | generate-master-data.js:257-262 | Every list in the map is non-empty: a muscle group becomes a key only together with the id pushed under it. |
| ExerciseFilter.BeginnerMapSpec | generate-master-data.js:243-263 | A muscle group is a key exactly when some row with level `beginner` and popularity at least 4 carries it. Its list holds the ids of those rows, in row order. |
| ExerciseFilter.MuscleGroupMap | generate-master-data.js:240-263 | Over the whole sheet, header skipped: a name is a key exactly when some row below the header has `beginner` in column 4, at least 4 in column 3, and that name as the text of column 15. The list under a name holds the column-0 ids of exactly those rows, in row order. |
| ExerciseFilter.NonEmpty | generate-master-data.js:323 | The kept strings are exactly the non-empty ones. |
| JsArrays.Dedup | generate-master-data.js:32-35 | Deduplication yields no duplicates. Every element of the result is from the input, and every input element is in the result. |
| JsArrays.DedupOfDistinct | generate-master-data.js:32-35 | A duplicate-free sequence passes through deduplication unchanged. |
| JsArrays.DedupIdempotent | generate-master-data.js:32-35 | Deduplicating twice gives the same as deduplicating once. |
| JsArrays.IndicesWhere | generate-master-data.js:342-362 | The kept positions are strictly increasing and in range. They are exactly the positions whose element satisfies the predicate. |
| JsArrays.FilterMapPositions | generate-master-data.js:342-363 | `filter` followed by `map` yields the mapped elements at exactly the kept positions, in order. |
| JsStrings.IndexOf | generate-master-data.js:359 | The result is the first position where the needle occurs, or none exactly when it occurs nowhere. Every text contains `""`. |
| JsStrings.Split | generate-master-data.js:45 | Split always yields at least one piece, and no piece contains the separator. |
| JsStrings.JoinSplit | generate-master-data.js:73 | Joining the pieces of a split with the same separator gives back the text. |
| JsStrings.SplitJoin | generate-master-data.js:183 | Splitting a join of separator-free pieces on a one-character separator gives back the pieces. |
| JsStrings.SplitCell | generate-master-data.js:45-47 | Splitting a cell succeeds exactly when the cell holds a string, and then gives that string's pieces. |
| JsStrings.SplitIfTruthy | generate-master-data.js:73 | A falsy cell gives `[]`. A truthy string gives its pieces. A truthy non-string fails. |
| JsStrings.CellText | generate-master-data.js:359 | `String(cell)`, as `includes` and a property key convert a cell. A text cell gives its text and `undefined` gives `"undefined"`. A non-negative number gives decimal digits only, and a negative one gives `-` followed by more characters. |
| JsStrings.Trim | generate-master-data.js:353 | A trimmed string is no longer than the input and neither starts nor ends with white space. |
| JsStrings.TrimIsPadding | generate-master-data.js:353 | Trimming removes only white space, and only from the two ends. |

## Left out

- Drive persistence is foreign I/O and is not modelled. This covers trashing old files, creating files, sharing, URLs and alert dialogs (`saveJsonToFolder`, and file creation in the master-data export).
- `JSON.stringify` pretty-printing is a library call and is not modelled. Records are maps, so key order is not modelled either.
- `JSON.parse` is a parameter. The model's `Value` has only strings, integers, `undefined` and arrays, so parsed JSON booleans, nulls, objects and fractional numbers are not represented.
- The menu, edit trigger, sidebar, data-validation rules and `writeToSheet` are UI side effects and are not modelled.
- Clock and sheet reads are left to the caller. `new Date()` becomes the `now` parameter. Time-zone formatting in `exportPlanner` is not modelled. Sheet lookups, "sheet not found" early returns, the active cell and the single-cell reads (`F11`, `F12`, `C11`-`C13`, the selection cell) become parameters or are left out.
- Logging (`Logger`, `console`) is not modelled.
- Sheet numbers are doubles in the script but `int` in the model. Boolean and date cells are not modelled.
- ExerciseFilter.GetItems: requires every row to be readable by `ExerciseRowOf`, that is, a number in column 3 (popularity) and text or a blank in column 15 (muscle groups). JavaScript coercion of a non-number popularity in `>=` is not modelled. Neither is the TypeError that `split` throws on a numeric muscle-group cell. The minimum popularity is an integer and the equipment and selection cells are strings. Rows are given without the header row, as the script's range starting at row 2 gives them.
- ExerciseFilter.MuscleGroupMap: requires the same readable rows below the header, although the script reads column 15 only as a property name and would accept a number there. Property names that already exist on every JavaScript object, such as `constructor`, are not modelled.
- WeeklyPlan.AssemblePlan: the contract requires at least seven rows. With fewer rows the script throws while indexing past the end.
- JsStrings.SplitJoin: proved only for one-character separators (`,` and `;`). The `", "` separator is covered only in the other direction, by `JoinSplit`.
- JsStrings.CellText: for a number the contract states only the shape of the text (digits, or a leading `-`), not which digits. The definition writes the usual decimal form.
- JsArrays.Dedup: the contract states distinctness and equal membership. It does not state that elements keep the order of their first occurrence, although the definition keeps it.

=== FILE: equipment.dfy ===
/** The equipment export: every row of the "equipments" sheet becomes an
    English and a Tamil catalogue record that differ only in their video.
    Columns: 0 id, 1 name, 2 thumbnail, 3 exercise ids (", "-separated),
    4 English video, 5 Tamil video.
 */
module Equipment {
  import opened JsValues
  import opened JsStrings
  import opened Locales

  datatype EquipmentRecord = EquipmentRecord(
    id: Cell,
    name: Cell,
    thumbnail: Cell,
    exercises: seq<string>,
    videos: seq<Cell>)

  /** `cell ? [cell] : []`. */
  function VideoList(c: Cell): (r: seq<Cell>)
    ensures |r| <= 1
    ensures r == [c] <==> Truthy(c)
    ensures r == [] <==> !Truthy(c)
  {
    if Truthy(c) then [c] else []
  }

  /** One iteration of the row loop. */
  function EquipmentRecords(row: seq<Cell>): (r: Result<Localized<EquipmentRecord>>)
    ensures r.Ok? <==> !Truthy(CellAt(row, 3)) || CellAt(row, 3).Str?
    ensures r.Ok? ==> r.value.en.id == r.value.ta.id == CellAt(row, 0)
    ensures r.Ok? ==> r.value.en.name == r.value.ta.name == CellAt(row, 1)
    ensures r.Ok? ==> r.value.en.thumbnail == r.value.ta.thumbnail == CellAt(row, 2)
    ensures r.Ok? ==> r.value.en.exercises == r.value.ta.exercises
    ensures r.Ok? ==> r.value.en.exercises == if Truthy(CellAt(row, 3)) then Split(CellAt(row, 3).s, ", ") else []
    ensures r.Ok? ==> r.value.en.videos == VideoList(CellAt(row, 4))
    ensures r.Ok? ==> r.value.ta.videos == VideoList(CellAt(row, 5))
  {
    var exercises :- SplitIfTruthy(CellAt(row, 3), ", ");
    var shared := EquipmentRecord(CellAt(row, 0), CellAt(row, 1), CellAt(row, 2), exercises, []);
    Ok(Localized(shared.(videos := VideoList(CellAt(row, 4))),
                 shared.(videos := VideoList(CellAt(row, 5)))))
  }

  /** The exercise list is the exercise cell taken apart: joined back with
      ", " it gives the cell's text (or "" for a falsy cell). */
  lemma ExercisesRoundTrip(row: seq<Cell>)
    requires EquipmentRecords(row).Ok?
    ensures Join(EquipmentRecords(row).value.en.exercises, ", ")
            == if Truthy(CellAt(row, 3)) then CellAt(row, 3).s else ""
  {
    if Truthy(CellAt(row, 3)) {
      JoinSplit(CellAt(row, 3).s, ", ");
    }
  }

  /** The two locale lists for a sheet whose first row is the header. */
  function ExportEquipment(sheet: seq<seq<Cell>>): (r: Result<Localized<seq<EquipmentRecord>>>)
    ensures r.Ok? <==> forall i :: 1 <= i < |sheet| ==> EquipmentRecords(sheet[i]).Ok?
    ensures r.Ok? ==> |r.value.en| == |r.value.ta| == |DataRows(sheet)|
    ensures r.Ok? ==> forall k :: 0 <= k < |r.value.en| ==>
              Ok(Localized(r.value.en[k], r.value.ta[k])) == EquipmentRecords(sheet[k + 1])
  {
    var rows := DataRows(sheet);
    assert forall i :: 1 <= i < |sheet| ==> sheet[i] == rows[i - 1];
    var pairs :- MapAll(rows, EquipmentRecords);
    Ok(Unzip(pairs))
  }
}

=== FILE: exercise_filter.dfy ===
/** The planner's exercise queries over the data sheet: the candidates for a
    day's selected muscle groups, and the beginner exercises grouped by
    muscle group. Both read a data row at column 0 (id), 3 (popularity),
    4 (level), 6 (equipment) and 15 (muscle groups).
 */
module ExerciseFilter {
  import opened JsValues
  import opened JsStrings
  import opened JsArrays

  /** The five cells of a data-sheet row the queries read. */
  datatype ExerciseRow = ExerciseRow(
    id: Cell,
    popularity: int,
    level: Cell,
    equipment: Cell,
    muscleGroups: Cell)

  /** Reads a sheet row's five cells. Defined when the popularity cell is a
      number and the muscle-group cell is text or blank. */
  function ExerciseRowOf(row: seq<Cell>): (r: Option<ExerciseRow>)
    ensures r.Some? <==> CellAt(row, 3).Num? && (CellAt(row, 15).Str? || !Truthy(CellAt(row, 15)))
    ensures r.Some? ==> r.value.id == CellAt(row, 0) && r.value.level == CellAt(row, 4)
    ensures r.Some? ==> Num(r.value.popularity) == CellAt(row, 3)
    ensures r.Some? ==> r.value.equipment == CellAt(row, 6) && r.value.muscleGroups == CellAt(row, 15)
  {
    var popularity := CellAt(row, 3);
    var groups := CellAt(row, 15);
    if popularity.Num? && (groups.Str? || !Truthy(groups)) then
      Some(ExerciseRow(CellAt(row, 0), popularity.n, CellAt(row, 4), CellAt(row, 6), groups))
    else None
  }

  /** Every row of the range can be read. */
  predicate Readable(data: seq<seq<Cell>>) {
    forall i :: 0 <= i < |data| ==> ExerciseRowOf(data[i]).Some?
  }

  /** The rows of the range, read. */
  function ExerciseRows(data: seq<seq<Cell>>): (rows: seq<ExerciseRow>)
    requires Readable(data)
    ensures |rows| == |data|
    ensures forall i :: 0 <= i < |data| ==> ExerciseRowOf(data[i]) == Some(rows[i])
  {
    seq(|data|, i requires 0 <= i < |data| => ExerciseRowOf(data[i]).value)
  }

  /** The planner's filter cells C11 to C13: minimum popularity, required
      level, and the free-text list of available equipment. */
  datatype Criteria = Criteria(minPopularity: int, level: Cell, equipments: string)

  /** `pieces.map(p => p.trim())`. */
  function TrimAll(pieces: seq<string>): (r: seq<string>)
    ensures |r| == |pieces|
    ensures forall k :: 0 <= k < |pieces| ==> r[k] == Trim(pieces[k])
  {
    seq(|pieces|, k requires 0 <= k < |pieces| => Trim(pieces[k]))
  }

  /** `pieces.filter(String)`: the non-empty strings, in order. */
  function NonEmpty(pieces: seq<string>): (r: seq<string>)
    ensures forall x :: x in r <==> x in pieces && x != ""
    decreases |pieces|
  {
    if |pieces| == 0 then []
    else
      var n := |pieces| - 1;
      assert pieces == pieces[..n] + [pieces[n]];
      NonEmpty(pieces[..n]) + (if pieces[n] != "" then [pieces[n]] else [])
  }

  /** A string is among the trimmed pieces exactly when it is the trim of
      one of the pieces. */
  lemma TrimAllMembers(pieces: seq<string>, x: string)
    ensures x in TrimAll(pieces) <==> exists p :: p in pieces && Trim(p) == x
  {
    var trimmed := TrimAll(pieces);
    if exists p :: p in pieces && Trim(p) == x {
      var p :| p in pieces && Trim(p) == x;
      var k :| 0 <= k < |pieces| && pieces[k] == p;
      assert trimmed[k] == x;
    }
  }

  /** The selected muscle groups of the active planner row:
      `cell.split(',').map(g => g.trim()).filter(String)`. */
  function SelectedGroups(selection: string): (r: seq<string>)
    ensures forall x :: x in r <==> x != "" && exists p :: p in Split(selection, ",") && Trim(p) == x
  {
    var pieces := Split(selection, ",");
    var trimmed := TrimAll(pieces);
    assert forall x :: x in trimmed <==> exists p :: p in pieces && Trim(p) == x by {
      forall x {
        TrimAllMembers(pieces, x);
      }
    }
    NonEmpty(trimmed)
  }

  /** A row's muscle groups: `cell.split(',').map(g => g.trim())`. */
  function RowGroups(muscleGroups: string): seq<string> {
    TrimAll(Split(muscleGroups, ","))
  }

  /** The four conditions of the row filter. A blank muscle-group cell
      fails at once; level is compared with `===`; the equipment cell is
      converted to text for `includes`. */
  predicate Matches(selected: seq<string>, c: Criteria, row: ExerciseRow) {
    && Truthy(row.muscleGroups)
    && row.muscleGroups.Str?
    && (exists g :: g in selected && g in RowGroups(row.muscleGroups.s))
    && row.popularity >= c.minPopularity
    && row.level == c.level
    && Contains(c.equipments, CellText(row.equipment))
  }

  /** The filter as a function value, for `filter`. */
  function Filter(selected: seq<string>, c: Criteria): ExerciseRow -> bool {
    row => Matches(selected, c, row)
  }

  function IdOf(row: ExerciseRow): Cell {
    row.id
  }

  /** An empty selection matches no row, so the early return in `getItems`
      changes nothing but the work done. */
  lemma {:induction false} EmptySelectionMatchesNothing(c: Criteria, rows: seq<ExerciseRow>)
    ensures IndicesWhere(rows, Filter([], c)) == []
  {
    forall i | 0 <= i < |rows|
      ensures !Filter([], c)(rows[i])
    {
    }
    NoneMatch(rows, Filter([], c));
  }

  /** The filter read column by column on a sheet row. */
  lemma MatchesColumns(selected: seq<string>, c: Criteria, row: seq<Cell>)
    requires ExerciseRowOf(row).Some?
    ensures Matches(selected, c, ExerciseRowOf(row).value) <==>
              && CellAt(row, 15).Str? && CellAt(row, 15).s != ""
              && (exists g :: g in selected && g in RowGroups(CellAt(row, 15).s))
              && CellAt(row, 3).n >= c.minPopularity
              && CellAt(row, 4) == c.level
              && Contains(c.equipments, CellText(CellAt(row, 6)))
  {
  }

  /** The ids of the data rows that pass the filter, in sheet order. `data`
      is the range below the header row. */
  method GetItems(selection: string, c: Criteria, data: seq<seq<Cell>>) returns (ids: seq<Cell>)
    requires Readable(data)
    ensures SelectedGroups(selection) == [] ==> ids == []
    ensures ids == FilterMap(ExerciseRows(data), Filter(SelectedGroups(selection), c), IdOf)
  {
    var rows := ExerciseRows(data);
    var selected := SelectedGroups(selection);
    var keep := Filter(selected, c);
    if |selected| == 0 {
      EmptySelectionMatchesNothing(c, rows);
      FilterMapPositions(rows, keep, IdOf);
      return [];
    }
    ids := [];
    var i := 0;
    while i < |rows|
      invariant 0 <= i <= |rows|
      invariant ids == FilterMap(rows[..i], keep, IdOf)
    {
      FilterMapSnoc(rows, i, keep, IdOf);
      if keep(rows[i]) {
        ids := ids + [IdOf(rows[i])];
      }
      i := i + 1;
    }
    assert rows[..i] == rows;
  }

  // ---------------------------------------------------------------------

  /** The rows offered as beginner choices. */
  predicate Beginner(row: ExerciseRow) {
    row.level == Str("beginner") && row.popularity >= 4
  }

  /** The property name a row's muscle-group cell becomes. */
  function GroupKey(row: ExerciseRow): string {
    CellText(row.muscleGroups)
  }

  /** The muscle-group map: each muscle-group name to the ids of the
      beginner rows carrying it, pushed in row order. */
  function BeginnerMap(rows: seq<ExerciseRow>): (m: map<string, seq<Cell>>)
    ensures forall k :: k in m ==> |m[k]| > 0
    decreases |rows|
  {
    if |rows| == 0 then map[]
    else
      var n := |rows| - 1;
      var m := BeginnerMap(rows[..n]);
      var row := rows[n];
      var k := GroupKey(row);
      if Beginner(row) then
        m[k := (if k in m then m[k] else []) + [row.id]]
      else m
  }

  /** The beginner rows carrying muscle group `k`, as a function value. */
  function BeginnerIn(k: string): ExerciseRow -> bool {
    row => Beginner(row) && GroupKey(row) == k
  }

  /** A muscle group is a key exactly when some beginner row carries it, and
      its list holds the ids of those rows, in order. */
  lemma {:induction false} BeginnerMapSpec(rows: seq<ExerciseRow>, k: string)
    ensures k in BeginnerMap(rows) <==> exists i :: 0 <= i < |rows| && Beginner(rows[i]) && GroupKey(rows[i]) == k
    ensures k in BeginnerMap(rows) ==>
              BeginnerMap(rows)[k] == FilterMap(rows, BeginnerIn(k), IdOf)
    ensures k !in BeginnerMap(rows) ==>
              FilterMap(rows, BeginnerIn(k), IdOf) == []
    decreases |rows|
  {
    if |rows| > 0 {
      var n := |rows| - 1;
      BeginnerMapSpec(rows[..n], k);
      assert forall i :: 0 <= i < n ==> rows[..n][i] == rows[i];
    }
  }

  /** The map the script builds from the whole sheet, header row included;
      its loop starts below the header. */
  function MuscleGroupMap(sheet: seq<seq<Cell>>): (m: map<string, seq<Cell>>)
    requires Readable(DataRows(sheet))
    ensures forall k :: k in m <==>
              exists i :: 1 <= i < |sheet| && CellAt(sheet[i], 4) == Str("beginner")
                          && CellAt(sheet[i], 3).n >= 4 && CellText(CellAt(sheet[i], 15)) == k
    ensures forall k :: k in m ==> m[k] == FilterMap(ExerciseRows(DataRows(sheet)), BeginnerIn(k), IdOf)
  {
    var rows := ExerciseRows(DataRows(sheet));
    assert forall k :: (k in BeginnerMap(rows) <==> exists i :: 0 <= i < |rows| && Beginner(rows[i]) && GroupKey(rows[i]) == k)
                       && (k in BeginnerMap(rows) ==> BeginnerMap(rows)[k] == FilterMap(rows, BeginnerIn(k), IdOf)) by {
      forall k {
        BeginnerMapSpec(rows, k);
      }
    }
    assert forall i :: 1 <= i < |sheet| ==> ExerciseRowOf(sheet[i]) == Some(rows[i - 1]);
    BeginnerMap(rows)
  }
}

=== FILE: js_arrays.dfy ===
/** The array operations the routines use: `Array.from(new Set(xs))` and
    `xs.filter(p)`, the latter described through the positions it keeps.
 */
module JsArrays {

  predicate NoDups<T(==)>(s: seq<T>) {
    forall i, j :: 0 <= i < j < |s| ==> s[i] != s[j]
  }

  /** `Array.from(new Set(s))`: the distinct elements of `s`, each kept at
      its first occurrence. */
  function Dedup<T(==)>(s: seq<T>): (r: seq<T>)
    ensures NoDups(r)
    ensures forall i :: 0 <= i < |r| ==> r[i] in s
    ensures forall i :: 0 <= i < |s| ==> s[i] in r
    ensures |r| <= |s|
    decreases |s|
  {
    if |s| == 0 then []
    else
      var d := Dedup(s[..|s| - 1]);
      var x := s[|s| - 1];
      assert s == s[..|s| - 1] + [x];
      if x in d then d else d + [x]
  }

  /** A sequence that already has no duplicates is left as it is. */
  lemma {:induction false} DedupOfDistinct<T>(s: seq<T>)
    requires NoDups(s)
    ensures Dedup(s) == s
    decreases |s|
  {
    if |s| > 0 {
      var init := s[..|s| - 1];
      DedupOfDistinct(init);
      assert s[|s| - 1] !in init;
      assert s == init + [s[|s| - 1]];
    }
  }

  /** Deduplicating twice is deduplicating once. */
  lemma DedupIdempotent<T>(s: seq<T>)
    ensures Dedup(Dedup(s)) == Dedup(s)
  {
    DedupOfDistinct(Dedup(s));
  }

  /** The positions `xs.filter(p)` keeps, in increasing order. */
  function IndicesWhere<T>(xs: seq<T>, p: T -> bool): (r: seq<nat>)
    ensures forall k :: 0 <= k < |r| ==> r[k] < |xs| && p(xs[r[k]])
    ensures forall a, b :: 0 <= a < b < |r| ==> r[a] < r[b]
    ensures forall i :: 0 <= i < |xs| && p(xs[i]) ==> i in r
    decreases |xs|
  {
    if |xs| == 0 then []
    else
      var n := |xs| - 1;
      var prev := IndicesWhere(xs[..n], p);
      assert forall i :: 0 <= i < n ==> xs[..n][i] == xs[i];
      if p(xs[n]) then prev + [n] else prev
  }

  /** Where no element satisfies `p`, the filter keeps nothing. */
  lemma NoneMatch<T>(xs: seq<T>, p: T -> bool)
    requires forall i :: 0 <= i < |xs| ==> !p(xs[i])
    ensures IndicesWhere(xs, p) == []
  {
  }

  /** The elements of `xs` at positions `idx`, in that order. */
  function Pick<T, U>(xs: seq<T>, idx: seq<nat>, f: T -> U): (r: seq<U>)
    requires forall k :: 0 <= k < |idx| ==> idx[k] < |xs|
    ensures |r| == |idx|
    ensures forall k :: 0 <= k < |idx| ==> r[k] == f(xs[idx[k]])
  {
    seq(|idx|, k requires 0 <= k < |idx| => f(xs[idx[k]]))
  }

  /** `xs.filter(p).map(f)`. */
  function FilterMap<T, U>(xs: seq<T>, p: T -> bool, f: T -> U): seq<U>
    decreases |xs|
  {
    if |xs| == 0 then []
    else
      var n := |xs| - 1;
      FilterMap(xs[..n], p, f) + (if p(xs[n]) then [f(xs[n])] else [])
  }

  /** One more element: the filter of a longer prefix extends the filter of
      the shorter one by that element's image, if it passes. */
  lemma FilterMapSnoc<T, U>(xs: seq<T>, i: nat, p: T -> bool, f: T -> U)
    requires i < |xs|
    ensures FilterMap(xs[..i + 1], p, f) == FilterMap(xs[..i], p, f) + (if p(xs[i]) then [f(xs[i])] else [])
  {
    assert xs[..i + 1][..i] == xs[..i];
  }

  /** A filter keeps exactly the elements at the positions that satisfy
      `p`, in their original order. */
  lemma {:induction false} FilterMapPositions<T, U>(xs: seq<T>, p: T -> bool, f: T -> U)
    ensures FilterMap(xs, p, f) == Pick(xs, IndicesWhere(xs, p), f)
    decreases |xs|
  {
    if |xs| > 0 {
      var n := |xs| - 1;
      FilterMapPositions(xs[..n], p, f);
      var prev := IndicesWhere(xs[..n], p);
      assert forall k :: 0 <= k < |prev| ==> xs[..n][prev[k]] == xs[prev[k]];
    }
  }
}

=== FILE: js_strings.dfy ===
/** The JavaScript string operations the export routines rely on:
    `indexOf`/`includes`, `split` and `join` with a non-empty string
    separator, `trim`, `startsWith` and `endsWith`, and the
    "split this cell" idioms built from them.
 */
module JsStrings {
  import opened JsValues

  /** `sep` occurs in `s` starting at index `i`. */
  predicate OccursAt(s: string, sep: string, i: nat) {
    i + |sep| <= |s| && s[i..i + |sep|] == sep
  }

  /** `s` contains no occurrence of `sep`. */
  ghost predicate Free(s: string, sep: string) {
    forall i: nat :: !OccursAt(s, sep, i)
  }

  lemma OccursAtTail(s: string, sep: string, j: nat)
    requires |s| > 0 && j > 0
    ensures OccursAt(s, sep, j) <==> OccursAt(s[1..], sep, j - 1)
  {
    if j + |sep| <= |s| {
      assert s[1..][j - 1..j - 1 + |sep|] == s[j..j + |sep|];
    }
  }

  /** `s.indexOf(sep)`: the first index at which `sep` occurs, if any. */
  function IndexOf(s: string, sep: string): (r: Option<nat>)
    ensures r.Some? ==> OccursAt(s, sep, r.value)
    ensures r.Some? ==> forall j: nat :: j < r.value ==> !OccursAt(s, sep, j)
    ensures r.None? <==> Free(s, sep)
    decreases |s|
  {
    if |s| < |sep| then None
    else if s[..|sep|] == sep then Some(0)
    else
      assert !OccursAt(s, sep, 0);
      match IndexOf(s[1..], sep)
      case Some(i) =>
        assert OccursAt(s, sep, i + 1) by {
          OccursAtTail(s, sep, i + 1);
        }
        assert forall j: nat :: 0 < j <= i ==> !OccursAt(s, sep, j) by {
          forall j: nat | 0 < j <= i {
            OccursAtTail(s, sep, j);
          }
        }
        Some(i + 1)
      case None =>
        assert forall j: nat :: 0 < j ==> !OccursAt(s, sep, j) by {
          forall j: nat | 0 < j {
            OccursAtTail(s, sep, j);
          }
        }
        None
  }

  /** The first occurrence is unique: any occurrence with none before it is the one `IndexOf` finds. */
  lemma IndexOfIsFirst(s: string, sep: string, i: nat)
    requires OccursAt(s, sep, i)
    requires forall j: nat :: j < i ==> !OccursAt(s, sep, j)
    ensures IndexOf(s, sep) == Some(i)
  {
  }

  /** For a one-character separator, occurrences are just equal characters. */
  lemma OccursAtChar(s: string, c: char, i: nat)
    ensures OccursAt(s, [c], i) <==> i < |s| && s[i] == c
  {
    if i < |s| {
      assert s[i..i + 1] == [s[i]];
    }
  }

  /** A string none of whose characters is `c` contains no `[c]`. */
  lemma FreeOfChar(s: string, c: char)
    requires forall j :: 0 <= j < |s| ==> s[j] != c
    ensures Free(s, [c])
  {
    forall j: nat
      ensures !OccursAt(s, [c], j)
    {
      OccursAtChar(s, c, j);
    }
  }

  /** `hay.includes(needle)`; every string includes the empty string. */
  predicate Contains(hay: string, needle: string) {
    IndexOf(hay, needle).Some?
  }

  lemma OccursInPrefix(s: string, sep: string, n: nat, j: nat)
    requires n <= |s| && OccursAt(s[..n], sep, j)
    ensures OccursAt(s, sep, j) && j + |sep| <= n
  {
    assert s[..n][j..j + |sep|] == s[j..j + |sep|];
  }

  /** `s.split(sep)` for a non-empty string separator: the pieces between
      successive leftmost non-overlapping occurrences of `sep`; `""` splits
      to `[""]`. */
  function Split(s: string, sep: string): (r: seq<string>)
    requires |sep| > 0
    ensures |r| >= 1
    ensures forall k :: 0 <= k < |r| ==> Free(r[k], sep)
    decreases |s|
  {
    match IndexOf(s, sep)
    case None => [s]
    case Some(i) =>
      assert Free(s[..i], sep) by {
        forall j: nat | OccursAt(s[..i], sep, j)
          ensures false
        {
          OccursInPrefix(s, sep, i, j);
        }
      }
      [s[..i]] + Split(s[i + |sep|..], sep)
  }

  /** `pieces.join(sep)`. */
  function Join(pieces: seq<string>, sep: string): string
    decreases |pieces|
  {
    if |pieces| == 0 then ""
    else if |pieces| == 1 then pieces[0]
    else pieces[0] + sep + Join(pieces[1..], sep)
  }

  /** Joining the pieces of a split with the same separator gives back the
      original string. */
  lemma {:induction false} JoinSplit(s: string, sep: string)
    requires |sep| > 0
    ensures Join(Split(s, sep), sep) == s
    decreases |s|
  {
    match IndexOf(s, sep)
    case None =>
    case Some(i) =>
      var rest := s[i + |sep|..];
      var tail := Split(rest, sep);
      JoinSplit(rest, sep);
      assert Split(s, sep) == [s[..i]] + tail;
      assert ([s[..i]] + tail)[1..] == tail;
      assert Join([s[..i]] + tail, sep) == s[..i] + sep + Join(tail, sep);
      assert s == s[..i] + s[i..i + |sep|] + rest;
  }

  lemma FreeConcatSingle(a: string, sep: string, b: string)
    requires |sep| == 1 && Free(a, sep)
    ensures IndexOf(a + sep + b, sep) == Some(|a|)
  {
    var s := a + sep + b;
    assert s[|a|..|a| + 1] == sep;
    forall j: nat | j < |a|
      ensures !OccursAt(s, sep, j)
    {
      assert s[j..j + 1] == a[j..j + 1];
      assert !OccursAt(a, sep, j);
    }
    IndexOfIsFirst(s, sep, |a|);
  }

  /** The converse round trip, for a one-character separator: splitting a
      join of separator-free pieces gives back those pieces. */
  lemma {:induction false} SplitJoin(pieces: seq<string>, sep: string)
    requires |sep| == 1 && |pieces| >= 1
    requires forall k :: 0 <= k < |pieces| ==> Free(pieces[k], sep)
    ensures Split(Join(pieces, sep), sep) == pieces
    decreases |pieces|
  {
    if |pieces| == 1 {
      assert Free(pieces[0], sep);
    } else {
      var head := pieces[0];
      var rest := Join(pieces[1..], sep);
      var s := head + sep + rest;
      assert Join(pieces, sep) == s;
      FreeConcatSingle(head, sep, rest);
      assert s[..|head|] == head;
      assert s[|head| + 1..] == rest;
      assert Split(s, sep) == [head] + Split(rest, sep);
      SplitJoin(pieces[1..], sep);
      assert pieces == [head] + pieces[1..];
    }
  }

  predicate StartsWith(s: string, prefix: string) {
    |prefix| <= |s| && s[..|prefix|] == prefix
  }

  predicate EndsWith(s: string, suffix: string) {
    |suffix| <= |s| && s[|s| - |suffix|..] == suffix
  }

  /** JavaScript's white space and line terminators: what `\s` matches and
      what `trim` removes. */
  predicate IsSpace(c: char) {
    || c == ' ' || c == '\t' || c == '\n' || c == '\r'
    || c == '\U{B}' || c == '\U{C}' || c == '\U{A0}' || c == '\U{1680}'
    || ('\U{2000}' <= c <= '\U{200A}')
    || c == '\U{2028}' || c == '\U{2029}' || c == '\U{202F}' || c == '\U{205F}'
    || c == '\U{3000}' || c == '\U{FEFF}'
  }

  function TrimStart(s: string): (r: string)
    ensures |r| <= |s| && r == s[|s| - |r|..]
    ensures forall i :: 0 <= i < |s| - |r| ==> IsSpace(s[i])
    ensures |r| > 0 ==> !IsSpace(r[0])
    decreases |s|
  {
    if |s| > 0 && IsSpace(s[0]) then TrimStart(s[1..]) else s
  }

  function TrimEnd(s: string): (r: string)
    ensures |r| <= |s| && r == s[..|r|]
    ensures forall i :: |r| <= i < |s| ==> IsSpace(s[i])
    ensures |r| > 0 ==> !IsSpace(r[|r| - 1])
    decreases |s|
  {
    if |s| > 0 && IsSpace(s[|s| - 1]) then TrimEnd(s[..|s| - 1]) else s
  }

  /** `s.trim()`: `s` without its leading and trailing white space. */
  function Trim(s: string): (r: string)
    ensures |r| <= |s|
    ensures |r| > 0 ==> !IsSpace(r[0]) && !IsSpace(r[|r| - 1])
  {
    TrimEnd(TrimStart(s))
  }

  /** `r` is `s` with some white space removed from both ends. */
  ghost predicate Padded(s: string, r: string) {
    exists a: nat :: PaddedAt(s, r, a)
  }

  ghost predicate PaddedAt(s: string, r: string, a: nat) {
    && a + |r| <= |s| && s[a..a + |r|] == r
    && (forall i :: 0 <= i < a ==> IsSpace(s[i]))
    && (forall i :: a + |r| <= i < |s| ==> IsSpace(s[i]))
  }

  /** Trimming removes only white space, and only from the ends. */
  lemma TrimIsPadding(s: string)
    ensures Padded(s, Trim(s))
  {
    var t := TrimStart(s);
    PaddedBothEnds(s, t, TrimEnd(t));
  }

  /** White space cut from the front of `s`, then from the back of what
      remains, leaves `r` padded inside `s`. */
  lemma PaddedBothEnds(s: string, t: string, r: string)
    requires |t| <= |s| && t == s[|s| - |t|..]
    requires forall i :: 0 <= i < |s| - |t| ==> IsSpace(s[i])
    requires |r| <= |t| && r == t[..|r|]
    requires forall i :: |r| <= i < |t| ==> IsSpace(t[i])
    ensures PaddedAt(s, r, |s| - |t|)
  {
    var a := |s| - |t|;
    assert s[a..a + |r|] == r;
    forall i | a + |r| <= i < |s|
      ensures IsSpace(s[i])
    {
      assert s[i] == t[i - a];
    }
  }

  /** `cell.split(sep)`: a TypeError unless the cell holds a string. */
  function SplitCell(c: Cell, sep: string): (r: Result<seq<string>>)
    requires |sep| > 0
    ensures r.Ok? <==> c.Str?
    ensures r.Ok? ==> r.value == Split(c.s, sep)
  {
    match c
    case Str(s) => Ok(Split(s, sep))
    case _ => Err(NotAString(c))
  }

  /** `cell ? cell.split(sep) : []`. */
  function SplitIfTruthy(c: Cell, sep: string): (r: Result<seq<string>>)
    requires |sep| > 0
    ensures r.Err? <==> Truthy(c) && !c.Str?
    ensures !Truthy(c) ==> r == Ok([])
    ensures Truthy(c) && c.Str? ==> r == Ok(Split(c.s, sep))
  {
    if Truthy(c) then SplitCell(c, sep) else Ok([])
  }

  /** The decimal digits of an integer, as `String(n)` writes them. */
  function Decimal(n: int): (r: string)
    ensures n >= 0 ==> |r| > 0 && forall i :: 0 <= i < |r| ==> '0' <= r[i] <= '9'
    ensures n < 0 ==> |r| > 1 && r[0] == '-'
    decreases if n < 0 then 1 - n else n
  {
    if n < 0 then "-" + Decimal(-n)
    else if n < 10 then ["0123456789"[n]]
    else Decimal(n / 10) + ["0123456789"[n % 10]]
  }

  /** `String(c)`: the text JavaScript converts a cell to where a string is
      expected (an `includes` argument, an object property name). */
  function CellText(c: Cell): (r: string)
    ensures c.Str? ==> r == c.s
    ensures c.Empty? ==> r == "undefined"
    ensures c.Num? && c.n >= 0 ==> |r| > 0 && forall i :: 0 <= i < |r| ==> '0' <= r[i] <= '9'
    ensures c.Num? && c.n < 0 ==> |r| > 1 && r[0] == '-'
  {
    match c
    case Str(s) => s
    case Num(n) => Decimal(n)
    case Empty => "undefined"
  }
}

=== FILE: js_values.dfy ===
/** Spreadsheet cells, the JSON-like values the export routines build from
    them, and the error outcomes of the JavaScript operations they call.

    A sheet snapshot is a `seq<seq<Cell>>`, one inner sequence per row.
    Apps Script hands a blank cell over as the empty string, so a blank cell
    is `Str("")`; `Empty` stands for JavaScript's `undefined`, what indexing
    a row past its end yields.
 */
module JsValues {

  datatype Cell = Str(s: string) | Num(n: int) | Empty

  /** JavaScript truthiness of a cell: "", 0 and undefined are falsy. */
  predicate Truthy(c: Cell) {
    match c
    case Str(s) => s != ""
    case Num(n) => n != 0
    case Empty => false
  }

  /** `row[j]` in JavaScript: undefined past the end of the row. */
  function CellAt(row: seq<Cell>, j: nat): (c: Cell)
    ensures j >= |row| ==> c == Empty
    ensures j < |row| ==> c == row[j]
  {
    if j < |row| then row[j] else Empty
  }

  /** The rows below the header row (`for (i = 1; i < data.length; i++)`). */
  function DataRows<T>(sheet: seq<T>): (rows: seq<T>)
    ensures |rows| == if |sheet| == 0 then 0 else |sheet| - 1
    ensures forall k :: 0 <= k < |rows| ==> rows[k] == sheet[k + 1]
  {
    if |sheet| == 0 then [] else sheet[1..]
  }

  /** A value stored in an exported record: a cell copied verbatim, or an
      array (of strings from a split, or whatever a JSON array held). */
  datatype Value = Scalar(cell: Cell) | List(items: seq<Value>)

  /** An array of strings, as `split` produces it. */
  function StrList(ss: seq<string>): (r: Value)
    ensures r.List? && |r.items| == |ss|
    ensures forall i :: 0 <= i < |ss| ==> r.items[i] == Scalar(Str(ss[i]))
  {
    List(seq(|ss|, i requires 0 <= i < |ss| => Scalar(Str(ss[i]))))
  }

  datatype Option<+T> = None | Some(value: T)

  /** The exceptions the modelled code lets escape. */
  datatype JsError =
    | NotAString(cell: Cell)   // a string method (`split`, `replace`) called on a non-string: TypeError
    | JsonSyntax(text: string) // `JSON.parse` rejected its input: SyntaxError

  datatype Result<+T> = Ok(value: T) | Err(error: JsError) {
    predicate IsFailure() {
      Err?
    }

    function PropagateFailure<U>(): Result<U>
      requires Err?
    {
      Err(error)
    }

    function Extract(): T
      requires Ok?
    {
      value
    }
  }

  /** Applies `f` to every element in order; the first failure aborts, as a
      thrown exception aborts a JavaScript loop. */
  function MapAll<A, B>(xs: seq<A>, f: A -> Result<B>): (r: Result<seq<B>>)
    ensures r.Ok? <==> forall i :: 0 <= i < |xs| ==> f(xs[i]).Ok?
    ensures r.Ok? ==> |r.value| == |xs|
    ensures r.Ok? ==> forall i :: 0 <= i < |xs| ==> r.value[i] == f(xs[i]).value
    ensures r.Err? ==> exists i :: 0 <= i < |xs| && f(xs[i]) == Err(r.error)
                        && forall j :: 0 <= j < i ==> f(xs[j]).Ok?
    decreases |xs|
  {
    if |xs| == 0 then Ok([])
    else
      match f(xs[0])
      case Err(e) => Err(e)
      case Ok(y) =>
        match MapAll(xs[1..], f)
        case Err(e) =>
          assert forall i :: 1 <= i < |xs| ==> xs[1..][i - 1] == xs[i];
          Err(e)
        case Ok(ys) => Ok([y] + ys)
  }
}

=== FILE: locales.dfy ===
/** The two locales every export writes, and pairs of per-locale values. */
module Locales {

  datatype Locale = En | Ta

  /** One value per locale: the English one and the Tamil one. */
  datatype Localized<T> = Localized(en: T, ta: T) {
    function Side(l: Locale): T {
      match l
      case En => en
      case Ta => ta
    }
  }

  /** The per-locale lists built side by side by an export loop, which
      pushes one English and one Tamil record per row. */
  function Unzip<T>(pairs: seq<Localized<T>>): (r: Localized<seq<T>>)
    ensures |r.en| == |pairs| && |r.ta| == |pairs|
    ensures forall k :: 0 <= k < |pairs| ==> r.en[k] == pairs[k].en && r.ta[k] == pairs[k].ta
  {
    Localized(seq(|pairs|, k requires 0 <= k < |pairs| => pairs[k].en),
              seq(|pairs|, k requires 0 <= k < |pairs| => pairs[k].ta))
  }
}

=== FILE: master_data.dfy ===
/** The master-data export: each row of the exercise sheet becomes an
    English record and a Tamil record, steered by the header row, whose
    column names may carry a `(en)` or `(ta)` locale tag.
 */
module MasterData {
  import opened JsValues
  import opened JsStrings
  import opened Locales

  /** Columns whose value is comma-split into both records under the header
      itself, ahead of any tag check. */
  const AlwaysListFields: seq<string> := ["primaryMuscles", "secondaryMuscles", "images"]

  /** `JSON.parse` applied to a `[`-prefixed text: the array it denotes, or
      None when it throws. (A text starting with `[` that parses is an
      array, and arrays are truthy, so `value ? value : []` keeps it.) */
  type ParseJson = string -> Option<seq<Value>>

  // ---------------------------------------------------------------------
  // Removing locale tags: header.replace(/\s*\((en|ta)\)\s*/g, '')

  /** The number of white-space characters `s` starts with. */
  function SpaceRun(s: string): (n: nat)
    ensures n <= |s|
    ensures n < |s| ==> !IsSpace(s[n])
    decreases |s|
  {
    if |s| > 0 && IsSpace(s[0]) then 1 + SpaceRun(s[1..]) else 0
  }

  /** Every character of the run is white space. */
  lemma {:induction false} SpaceRunSpaces(s: string, i: nat)
    requires i < SpaceRun(s)
    ensures IsSpace(s[i])
    decreases |s|
  {
    if i > 0 {
      SpaceRunSpaces(s[1..], i - 1);
    }
  }

  /** `(en)` or `(ta)` occurs in `s` at index `w`. */
  predicate TagAt(s: string, w: nat) {
    && w + 4 <= |s|
    && s[w] == '(' && s[w + 3] == ')'
    && ((s[w + 1] == 'e' && s[w + 2] == 'n') || (s[w + 1] == 't' && s[w + 2] == 'a'))
  }

  /** `t` is a tag on its own. */
  predicate IsTag(t: string) {
    |t| == 4 && TagAt(t, 0)
  }

  /** The tags are exactly the two literals. */
  lemma IsTagLiterals(t: string)
    ensures IsTag(t) <==> t == "(en)" || t == "(ta)"
  {
    if IsTag(t) {
      assert t == [t[0], t[1], t[2], t[3]];
    }
  }

  /** The length of the match of `\s*\((en|ta)\)\s*` at the very start of
      `s`, if there is one. Both `\s*` are greedy, and backtracking the
      leading one cannot help, because a shorter run is followed by white
      space rather than `(`. */
  function TagMatch(s: string): (r: Option<nat>)
    ensures r.Some? <==> TagAt(s, SpaceRun(s))
    ensures r.Some? ==> SpaceRun(s) + 4 <= r.value <= |s|
  {
    var w := SpaceRun(s);
    if TagAt(s, w) then Some(w + 4 + SpaceRun(s[w + 4..])) else None
  }

  /** The global replace: scan left to right, drop every match, keep every
      other character. */
  function Detag(s: string): (r: string)
    ensures |r| <= |s|
    ensures |r| == |s| ==> r == s
    decreases |s|
  {
    if |s| == 0 then ""
    else
      match TagMatch(s)
      case Some(n) => Detag(s[n..])
      case None =>
        assert s == [s[0]] + s[1..];
        [s[0]] + Detag(s[1..])
  }

  /** A string in which neither `(en)` nor `(ta)` occurs... */
  ghost predicate TagFree(s: string) {
    forall w: nat :: !TagAt(s, w)
  }

  /** ...is left unchanged by the replace. */
  lemma {:induction false} DetagTagFree(s: string)
    requires TagFree(s)
    ensures Detag(s) == s
    decreases |s|
  {
    if |s| > 0 {
      assert !TagAt(s, SpaceRun(s));
      assert TagFree(s[1..]) by {
        forall w: nat | TagAt(s[1..], w)
          ensures false
        {
          assert TagAt(s, w + 1);
        }
      }
      DetagTagFree(s[1..]);
      assert s == [s[0]] + s[1..];
    }
  }

  /** A tag alone is one whole match. */
  lemma TagMatchOfTag(tag: string)
    requires IsTag(tag)
    ensures TagMatch(tag) == Some(4)
  {
    assert SpaceRun(tag) == 0;
    assert SpaceRun(tag[4..]) == 0;
  }

  /** No match can start where the first non-space character is not `(`. */
  lemma TagMatchNotParen(s: string)
    requires SpaceRun(s) < |s| && s[SpaceRun(s)] != '('
    ensures TagMatch(s).None?
  {
  }

  /** Where no match starts, the replace keeps the first character. */
  lemma DetagKeep(s: string)
    requires |s| > 0 && TagMatch(s).None?
    ensures Detag(s) == [s[0]] + Detag(s[1..])
  {
  }

  /** A tag on its own is removed entirely. */
  lemma DetagTag(tag: string)
    requires IsTag(tag)
    ensures Detag(tag) == ""
  {
    TagMatchOfTag(tag);
    assert tag[4..] == "";
  }

  /** A non-empty plain name followed by a tag: no match at its start. */
  lemma PlainNameNoMatch(p: string, tag: string)
    requires |p| > 0 && !IsSpace(p[|p| - 1])
    requires forall i :: 0 <= i < |p| ==> p[i] != '('
    ensures TagMatch(p + tag).None?
  {
    var s := p + tag;
    var w := SpaceRun(s);
    assert s[|p| - 1] == p[|p| - 1];
    if |p| - 1 < w {
      SpaceRunSpaces(s, |p| - 1);
    }
    assert w < |p|;
    assert s[w] == p[w];
    TagMatchNotParen(s);
  }

  /** The tail of a plain name is a plain name. */
  lemma PlainNameTail(p: string)
    requires |p| > 0 && !IsSpace(p[|p| - 1])
    requires forall i :: 0 <= i < |p| ==> p[i] != '('
    ensures forall i :: 0 <= i < |p| - 1 ==> p[1..][i] != '('
    ensures |p| > 1 ==> !IsSpace(p[1..][|p| - 2])
  {
    assert forall i :: 0 <= i < |p| - 1 ==> p[1..][i] == p[i + 1];
  }

  lemma ConsAppend(p: string, d: string)
    requires |p| > 0
    ensures [p[0]] + (p[1..] + d) == p + d
  {
  }

  /** One step over a plain name: its first character is kept. */
  lemma DetagPlainStep(p: string, t: string)
    requires |p| > 0 && !IsSpace(p[|p| - 1])
    requires forall i :: 0 <= i < |p| ==> p[i] != '('
    ensures Detag(p + t) == [p[0]] + Detag(p[1..] + t)
  {
    var s := p + t;
    PlainNameNoMatch(p, t);
    DetagKeep(s);
    assert s[1..] == p[1..] + t;
  }

  /** A plain name (no `(`, not ending in white space) in front of any text
      passes through the replace untouched: no match can begin inside it. */
  lemma {:induction false} DetagPlainPrefix(p: string, t: string)
    requires forall i :: 0 <= i < |p| ==> p[i] != '('
    requires |p| > 0 ==> !IsSpace(p[|p| - 1])
    ensures Detag(p + t) == p + Detag(t)
    decreases |p|
  {
    if |p| == 0 {
      assert p + t == t;
    } else {
      DetagPlainStep(p, t);
      PlainNameTail(p);
      DetagPlainPrefix(p[1..], t);
      ConsAppend(p, Detag(t));
    }
  }

  /** A plain column name followed by a tag, as in `name(en)`: the tag
      alone goes. */
  lemma DetagPlainName(p: string, tag: string)
    requires IsTag(tag)
    requires forall i :: 0 <= i < |p| ==> p[i] != '('
    requires |p| > 0 ==> !IsSpace(p[|p| - 1])
    ensures Detag(p + tag) == p
  {
    DetagPlainPrefix(p, tag);
    DetagTag(tag);
  }

  /** A run of white space in front of text that does not start with white
      space is exactly as long as the run. */
  lemma {:induction false} SpaceRunAll(w: string, t: string)
    requires forall i :: 0 <= i < |w| ==> IsSpace(w[i])
    requires |t| > 0 ==> !IsSpace(t[0])
    ensures SpaceRun(w + t) == |w|
    decreases |w|
  {
    if |w| == 0 {
      assert w + t == t;
    } else {
      assert (w + t)[1..] == w[1..] + t;
      SpaceRunAll(w[1..], t);
    }
  }

  /** A tag with white space around it is one whole match, both runs
      included. */
  lemma TagMatchSpaced(w1: string, tag: string, w2: string)
    requires IsTag(tag)
    requires forall i :: 0 <= i < |w1| ==> IsSpace(w1[i])
    requires forall i :: 0 <= i < |w2| ==> IsSpace(w2[i])
    ensures TagMatch(w1 + tag + w2) == Some(|w1 + tag + w2|)
  {
    var m := w1 + tag + w2;
    assert m == w1 + (tag + w2);
    SpaceRunAll(w1, tag + w2);
    assert m[|w1|..|w1| + 4] == tag;
    assert TagAt(m, |w1|);
    assert m[|w1| + 4..] == w2 + "";
    SpaceRunAll(w2, "");
  }

  /** A text that is one whole match disappears. */
  lemma DetagWholeMatch(m: string)
    requires TagMatch(m) == Some(|m|)
    ensures Detag(m) == ""
  {
    assert m[|m|..] == "";
  }

  /** A plain column name followed by a tag with white space on either side,
      as in `name (en)`: the tag goes together with the white space around
      it. */
  lemma DetagSpacedTag(p: string, w1: string, tag: string, w2: string)
    requires IsTag(tag)
    requires forall i :: 0 <= i < |w1| ==> IsSpace(w1[i])
    requires forall i :: 0 <= i < |w2| ==> IsSpace(w2[i])
    requires forall i :: 0 <= i < |p| ==> p[i] != '('
    requires |p| > 0 ==> !IsSpace(p[|p| - 1])
    ensures Detag(p + w1 + tag + w2) == p
  {
    var m := w1 + tag + w2;
    TagMatchSpaced(w1, tag, w2);
    DetagWholeMatch(m);
    DetagPlainPrefix(p, m);
    Regroup(p, w1, tag, w2);
    assert p + "" == p;
  }

  lemma Regroup(a: string, b: string, c: string, d: string)
    ensures a + b + c + d == a + (b + c + d)
  {
  }

  // ---------------------------------------------------------------------
  // Where each column goes: the routing table

  /** Which records a column writes to. */
  datatype Route = Both | Only(locale: Locale)

  /** The branch the inner loop takes for a header, in the order it tests. */
  datatype Shape = AlwaysList | Tagged(locale: Locale) | Untagged

  /** Which branch of the column loop a header takes: the fixed list-field
      names first, then the `(en)` suffix, then `(ta)`. */
  function ShapeOf(h: string): (r: Shape)
    ensures h in AlwaysListFields <==> r == AlwaysList
    ensures r.Tagged? ==> EndsWith(h, TagOf(r.locale))
    ensures EndsWith(h, "(en)") && h !in AlwaysListFields ==> r == Tagged(En)
    ensures r == Untagged <==> h !in AlwaysListFields && !EndsWith(h, "(en)") && !EndsWith(h, "(ta)")
  {
    if h in AlwaysListFields then AlwaysList
    else if EndsWith(h, "(en)") then Tagged(En)
    else if EndsWith(h, "(ta)") then Tagged(Ta)
    else Untagged
  }

  /** The key a header writes in locale `l`'s record, decided by the header
      alone: None when the header does not write that record (or is not a
      string, in which case the row fails). */
  function RouteKey(header: Cell, l: Locale): Option<string> {
    if !header.Str? then None
    else
      match ShapeOf(header.s)
      case AlwaysList => Some(header.s)
      case Untagged => Some(header.s)
      case Tagged(t) => if t == l then Some(Detag(header.s)) else None
  }

  // ---------------------------------------------------------------------
  // One column of one row

  /** What one column contributes: a key, the records it goes to, a value. */
  datatype Field = Field(key: string, route: Route, val: Value)

  predicate Writes(f: Field, l: Locale) {
    f.route == Both || f.route == Only(l)
  }

  predicate IsJsonText(v: Cell) {
    v.Str? && StartsWith(v.s, "[")
  }

  /** When a column's value is accepted: a split is only ever asked of a
      string, and a `(en)` JSON text must parse (there is no try/catch
      there; a `(ta)` one falls back to a split). */
  predicate Acceptable(header: Cell, v: Cell, parse: ParseJson) {
    && header.Str?
    && match ShapeOf(header.s)
       case AlwaysList => !Truthy(v) || v.Str?
       case Tagged(En) => if IsJsonText(v) then parse(v.s).Some? else !Truthy(v) || v.Str?
       case Tagged(Ta) => IsJsonText(v) || !Truthy(v) || v.Str?
       case Untagged => true
  }

  /** `value ? value.split(',') : []`, as an array value. */
  function CommaList(v: Cell): (r: Result<Value>)
    ensures r.Ok? <==> !Truthy(v) || v.Str?
    ensures r.Ok? ==> r.value == StrList(if Truthy(v) then Split(v.s, ",") else [])
  {
    var pieces :- SplitIfTruthy(v, ",");
    Ok(StrList(pieces))
  }

  /** The value a tagged column stores in its locale's record. */
  function TaggedValue(l: Locale, v: Cell, parse: ParseJson): Result<Value> {
    if IsJsonText(v) then
      match parse(v.s)
      case Some(items) => Ok(List(items))
      case None => if l == En then Err(JsonSyntax(v.s)) else Ok(StrList(Split(v.s, ",")))
    else CommaList(v)
  }

  /** One iteration of the inner loop over the headers. */
  function FieldOf(header: Cell, v: Cell, parse: ParseJson): (r: Result<Field>)
    ensures r.Ok? <==> Acceptable(header, v, parse)
    ensures !header.Str? ==> r == Err(NotAString(header))
    // routing: the key and the records written depend on the header alone
    ensures r.Ok? ==> forall l :: Writes(r.value, l) <==> RouteKey(header, l).Some?
    ensures r.Ok? ==> forall l :: Writes(r.value, l) ==> RouteKey(header, l) == Some(r.value.key)
    // always-list columns: the comma pieces, or [] for a falsy value
    ensures r.Ok? && ShapeOf(header.s) == AlwaysList ==>
              r.value.val == StrList(if Truthy(v) then Split(v.s, ",") else [])
    // untagged columns: the cell, verbatim
    ensures r.Ok? && ShapeOf(header.s) == Untagged ==> r.value.val == Scalar(v)
    // tagged columns: always an array
    ensures r.Ok? && ShapeOf(header.s).Tagged? ==> r.value.val.List?
    ensures r.Ok? && ShapeOf(header.s).Tagged? && !IsJsonText(v) ==>
              r.value.val == StrList(if Truthy(v) then Split(v.s, ",") else [])
    ensures r.Ok? && ShapeOf(header.s).Tagged? && IsJsonText(v) && parse(v.s).Some? ==>
              r.value.val == List(parse(v.s).value)
    ensures r.Ok? && ShapeOf(header.s) == Tagged(Ta) && IsJsonText(v) && parse(v.s).None? ==>
              r.value.val == StrList(Split(v.s, ","))
  {
    if !header.Str? then Err(NotAString(header))
    else
      var h := header.s;
      match ShapeOf(h)
      case AlwaysList =>
        var x :- CommaList(v);
        Ok(Field(h, Both, x))
      case Tagged(l) =>
        var x :- TaggedValue(l, v, parse);
        Ok(Field(Detag(h), Only(l), x))
      case Untagged => Ok(Field(h, Both, Scalar(v)))
  }

  // ---------------------------------------------------------------------
  // A whole row

  type Record = map<string, Value>

  /** `jsonObjectEn[key] = ...` and/or `jsonObjectTa[key] = ...`. */
  function Put(p: Localized<Record>, f: Field): (q: Localized<Record>)
    ensures forall l :: q.Side(l) == if Writes(f, l) then p.Side(l)[f.key := f.val] else p.Side(l)
  {
    Localized(if Writes(f, En) then p.en[f.key := f.val] else p.en,
              if Writes(f, Ta) then p.ta[f.key := f.val] else p.ta)
  }

  /** The two records after the fields have been stored in order. */
  function Assemble(fs: seq<Field>): Localized<Record>
    decreases |fs|
  {
    if |fs| == 0 then Localized(map[], map[])
    else Put(Assemble(fs[..|fs| - 1]), fs[|fs| - 1])
  }

  /** A key is in a record exactly when some field writes it there. */
  lemma {:induction false} AssembleKeys(fs: seq<Field>, l: Locale, k: string)
    ensures k in Assemble(fs).Side(l) <==> exists i :: 0 <= i < |fs| && Writes(fs[i], l) && fs[i].key == k
    decreases |fs|
  {
    if |fs| > 0 {
      var n := |fs| - 1;
      AssembleKeys(fs[..n], l, k);
      assert forall i :: 0 <= i < n ==> fs[..n][i] == fs[i];
    }
  }

  /** A key holds the value of the last field that writes it. */
  lemma {:induction false} AssembleLastWriter(fs: seq<Field>, l: Locale, i: nat)
    requires i < |fs| && Writes(fs[i], l)
    requires forall j :: i < j < |fs| && Writes(fs[j], l) ==> fs[j].key != fs[i].key
    ensures fs[i].key in Assemble(fs).Side(l)
    ensures Assemble(fs).Side(l)[fs[i].key] == fs[i].val
    decreases |fs|
  {
    var n := |fs| - 1;
    if i < n {
      assert forall j :: 0 <= j < n ==> fs[..n][j] == fs[j];
      AssembleLastWriter(fs[..n], l, i);
    }
  }

  /** The (header, value) pairs of a row; a row shorter than the header row
      reads `undefined` in the missing columns. */
  function Columns(headers: seq<Cell>, row: seq<Cell>): (cs: seq<(Cell, Cell)>)
    ensures |cs| == |headers|
    ensures forall j :: 0 <= j < |headers| ==> cs[j] == (headers[j], CellAt(row, j))
  {
    seq(|headers|, j requires 0 <= j < |headers| => (headers[j], CellAt(row, j)))
  }

  function RowFields(headers: seq<Cell>, row: seq<Cell>, parse: ParseJson): Result<seq<Field>> {
    MapAll(Columns(headers, row), (c: (Cell, Cell)) => FieldOf(c.0, c.1, parse))
  }

  /** Every column of the row is acceptable under its header. */
  predicate RowAcceptable(headers: seq<Cell>, row: seq<Cell>, parse: ParseJson) {
    forall j :: 0 <= j < |headers| ==> Acceptable(headers[j], CellAt(row, j), parse)
  }

  /** The body of the outer loop: one row to its English and Tamil records.
      A row exports exactly when every column's value is acceptable. */
  function LocalizeRow(headers: seq<Cell>, row: seq<Cell>, parse: ParseJson): (r: Result<Localized<Record>>)
    ensures r.Ok? <==> RowAcceptable(headers, row, parse)
  {
    var cs := Columns(headers, row);
    assert forall j :: 0 <= j < |headers| ==> cs[j] == (headers[j], CellAt(row, j));
    var fs :- RowFields(headers, row, parse);
    Ok(Assemble(fs))
  }

  lemma RowFieldsAt(headers: seq<Cell>, row: seq<Cell>, parse: ParseJson, j: nat)
    requires RowFields(headers, row, parse).Ok? && j < |headers|
    ensures |RowFields(headers, row, parse).value| == |headers|
    ensures FieldOf(headers[j], CellAt(row, j), parse).Ok?
    ensures RowFields(headers, row, parse).value[j] == FieldOf(headers[j], CellAt(row, j), parse).value
  {
    var cs := Columns(headers, row);
    assert cs[j] == (headers[j], CellAt(row, j));
  }

  /** Locale routing: a record's keys are exactly the keys that the routing
      table sends to that locale. In particular a `(ta)` column never adds a
      key to the English record, nor a `(en)` column to the Tamil one. */
  lemma LocaleKeys(headers: seq<Cell>, row: seq<Cell>, parse: ParseJson, l: Locale, k: string)
    requires RowAcceptable(headers, row, parse)
    ensures k in LocalizeRow(headers, row, parse).value.Side(l) <==>
            exists j :: 0 <= j < |headers| && RouteKey(headers[j], l) == Some(k)
  {
    var fs := RowFields(headers, row, parse).value;
    AssembleKeys(fs, l, k);
    forall j | 0 <= j < |headers|
      ensures Writes(fs[j], l) && fs[j].key == k <==> RouteKey(headers[j], l) == Some(k)
    {
      RowFieldsAt(headers, row, parse, j);
    }
  }

  /** The value under a key is the one the last column routed there stored. */
  lemma LocaleValue(headers: seq<Cell>, row: seq<Cell>, parse: ParseJson, l: Locale, j: nat)
    requires RowAcceptable(headers, row, parse)
    requires j < |headers| && RouteKey(headers[j], l).Some?
    requires forall j' :: j < j' < |headers| ==> RouteKey(headers[j'], l) != RouteKey(headers[j], l)
    ensures RouteKey(headers[j], l).value in LocalizeRow(headers, row, parse).value.Side(l)
    ensures LocalizeRow(headers, row, parse).value.Side(l)[RouteKey(headers[j], l).value]
            == FieldOf(headers[j], CellAt(row, j), parse).value.val
  {
    var fs := RowFields(headers, row, parse).value;
    RowFieldsAt(headers, row, parse, j);
    forall j' | j < j' < |fs| && Writes(fs[j'], l)
      ensures fs[j'].key != fs[j].key
    {
      RowFieldsAt(headers, row, parse, j');
    }
    AssembleLastWriter(fs, l, j);
  }

  /** Untagged and always-list columns hold the same value in both records,
      unless a later column overwrote the key in one of them. */
  lemma SharedFieldsAgree(headers: seq<Cell>, row: seq<Cell>, parse: ParseJson, j: nat)
    requires RowAcceptable(headers, row, parse)
    requires j < |headers| && headers[j].Str? && !ShapeOf(headers[j].s).Tagged?
    requires forall j', l :: j < j' < |headers| ==> RouteKey(headers[j'], l) != Some(headers[j].s)
    ensures headers[j].s in LocalizeRow(headers, row, parse).value.en
    ensures headers[j].s in LocalizeRow(headers, row, parse).value.ta
    ensures LocalizeRow(headers, row, parse).value.en[headers[j].s]
            == LocalizeRow(headers, row, parse).value.ta[headers[j].s]
  {
    LocaleValue(headers, row, parse, En, j);
    LocaleValue(headers, row, parse, Ta, j);
  }

  // ---------------------------------------------------------------------
  // The whole sheet

  /** The English and Tamil record lists of a sheet whose first row holds
      the headers. */
  function ExportMasterData(sheet: seq<seq<Cell>>, parse: ParseJson): (r: Result<Localized<seq<Record>>>)
    ensures r.Ok? <==> forall i :: 1 <= i < |sheet| ==> RowAcceptable(sheet[0], sheet[i], parse)
    ensures r.Ok? ==> |r.value.en| == |r.value.ta| == |DataRows(sheet)|
    ensures r.Ok? ==> forall k :: 0 <= k < |r.value.en| ==>
              Ok(Localized(r.value.en[k], r.value.ta[k])) == LocalizeRow(sheet[0], sheet[k + 1], parse)
  {
    if |sheet| == 0 then Ok(Localized([], []))
    else
      var rows := sheet[1..];
      assert forall i :: 1 <= i < |sheet| ==> sheet[i] == rows[i - 1];
      var pairs :- MapAll(rows, row => LocalizeRow(sheet[0], row, parse));
      Ok(Unzip(pairs))
  }

  // ---------------------------------------------------------------------
  // Plain-text tagged columns

  lemma SplitWithoutComma(s: string)
    requires forall j :: 0 <= j < |s| ==> s[j] != ','
    ensures Split(s, ",") == [s]
  {
    assert "," == [','];
    FreeOfChar(s, ',');
  }

  function TagOf(l: Locale): string {
    if l == En then "(en)" else "(ta)"
  }

  lemma ShapeOfTagged(p: string, l: Locale)
    ensures ShapeOf(p + TagOf(l)) == Tagged(l)
  {
    var h := p + TagOf(l);
    assert h[|h| - 1] == ')';
    assert h !in AlwaysListFields;
    assert h[|h| - 4..] == TagOf(l);
  }

  /** A column such as `name(en)` holding plain text without commas stores
      a one-element list (not the bare text) under `name`, and only in its
      own locale's record. */
  lemma TaggedPlainField(p: string, l: Locale, v: string, parse: ParseJson)
    requires forall i :: 0 <= i < |p| ==> p[i] != '('
    requires |p| > 0 && !IsSpace(p[|p| - 1])
    requires forall j :: 0 <= j < |v| ==> v[j] != ','
    requires |v| > 0 && v[0] != '['
    ensures FieldOf(Str(p + TagOf(l)), Str(v), parse) == Ok(Field(p, Only(l), StrList([v])))
  {
    DetagPlainName(p, TagOf(l));
    ShapeOfTagged(p, l);
    SplitWithoutComma(v);
    assert !IsJsonText(Str(v));
    assert TaggedValue(l, Str(v), parse) == Ok(StrList([v]));
  }
}

=== FILE: weekly_plan.dfy ===
/** The weekly-plan export: a planner sheet with one row per training day
    (rows 1 to 6) and plan-wide settings in row 1, turned into one plan.
    Columns: 0 day, 1 muscle groups (";"), 2 exercise ids (", "), 3 sets,
    4 reps, 5 rest, 6 goal, 7 fitness level, 8 days per week, 9 equipment
    (";"), 10 focus areas (";"), 11 duration, 12 preferences (";").
 */
module WeeklyPlan {
  import opened JsValues
  import opened JsStrings
  import opened JsArrays

  datatype Coach = Coach(name: Cell, gymName: Cell)

  datatype DayPlan = DayPlan(
    day: Cell,
    muscleGroups: seq<string>,
    exercises: seq<Value>,
    exerciseIds: seq<string>,
    sets: Cell,
    reps: Cell,
    rest: Cell)

  datatype Plan = Plan(
    days: seq<DayPlan>,
    goal: Cell,
    fitnessLevel: Cell,
    daysPerWeek: Cell,
    equipment: seq<string>,
    focusAreas: seq<string>,
    duration: Cell,
    preferences: seq<string>,
    coach: Coach,
    createdDate: string)

  /** `x` is one of the pieces of `row[col].split(sep)`. */
  predicate PieceOf(row: seq<Cell>, col: nat, sep: string, x: string) {
    |sep| > 0 && CellAt(row, col).Str? && x in Split(CellAt(row, col).s, sep)
  }

  /** `rows.flatMap(row => row[col].split(sep))`. */
  function FlatSplit(rows: seq<seq<Cell>>, col: nat, sep: string): (r: Result<seq<string>>)
    requires |sep| > 0
    ensures r.Ok? <==> forall i :: 0 <= i < |rows| ==> CellAt(rows[i], col).Str?
    ensures r.Ok? ==> forall x :: x in r.value <==> exists i :: 0 <= i < |rows| && PieceOf(rows[i], col, sep, x)
    decreases |rows|
  {
    if |rows| == 0 then Ok([])
    else
      assert forall i :: 1 <= i < |rows| ==> rows[1..][i - 1] == rows[i];
      var head :- SplitCell(CellAt(rows[0], col), sep);
      var tail :- FlatSplit(rows[1..], col, sep);
      Ok(head + tail)
  }

  /** `Array.from(new Set(rows.flatMap(row => row[col].split(sep))))`: every
      piece of the column, once each. */
  function DistinctPieces(rows: seq<seq<Cell>>, col: nat, sep: string): (r: Result<seq<string>>)
    requires |sep| > 0
    ensures r.Ok? <==> forall i :: 0 <= i < |rows| ==> CellAt(rows[i], col).Str?
    ensures r.Ok? ==> NoDups(r.value)
    ensures r.Ok? ==> forall x :: x in r.value <==> exists i :: 0 <= i < |rows| && PieceOf(rows[i], col, sep, x)
  {
    var all :- FlatSplit(rows, col, sep);
    assert forall x :: x in Dedup(all) <==> x in all by {
      forall x
        ensures x in Dedup(all) <==> x in all
      {
        var r := Dedup(all);
        if x in all {
          var i :| 0 <= i < |all| && all[i] == x;
        }
        if x in r {
          var i :| 0 <= i < |r| && r[i] == x;
        }
      }
    }
    Ok(Dedup(all))
  }

  /** One iteration of the day loop. */
  function DayFrom(row: seq<Cell>): (r: Result<DayPlan>)
    ensures r.Ok? <==> CellAt(row, 1).Str? && CellAt(row, 2).Str?
    ensures r.Ok? ==> r.value.muscleGroups == Split(CellAt(row, 1).s, ";")
    ensures r.Ok? ==> r.value.exerciseIds == Split(CellAt(row, 2).s, ", ")
    ensures r.Ok? ==> r.value.exercises == []
    ensures r.Ok? ==> r.value.day == CellAt(row, 0) && r.value.sets == CellAt(row, 3)
                      && r.value.reps == CellAt(row, 4) && r.value.rest == CellAt(row, 5)
  {
    var muscleGroups :- SplitCell(CellAt(row, 1), ";");
    var exerciseIds :- SplitCell(CellAt(row, 2), ", ");
    Ok(DayPlan(CellAt(row, 0), muscleGroups, [], exerciseIds, CellAt(row, 3), CellAt(row, 4), CellAt(row, 5)))
  }

  /** `now.split('T')[0]`: the calendar-date part of an ISO timestamp. */
  function DatePart(now: string): (d: string)
    ensures StartsWith(now, d)
    ensures Free(d, "T")
    ensures |d| < |now| ==> now[|d|] == 'T'
  {
    match IndexOf(now, "T")
    case None => now
    case Some(i) =>
      assert now[i..i + 1] == "T";
      assert Free(now[..i], "T") by {
        forall j: nat | OccursAt(now[..i], "T", j)
          ensures false
        {
          OccursInPrefix(now, "T", i, j);
        }
      }
      Split(now, "T")[0]
  }

  /** `Array.from(new Set(rows.slice(1).flatMap(row => row[col].split(';'))))`:
      one plan-wide set, over every row below the header. */
  function PlanSet(rows: seq<seq<Cell>>, col: nat): (r: Result<seq<string>>)
    ensures r.Ok? <==> forall i :: 1 <= i < |rows| ==> CellAt(rows[i], col).Str?
    ensures r.Ok? ==> NoDups(r.value)
    ensures r.Ok? ==> forall x :: x in r.value <==> exists i :: 1 <= i < |rows| && PieceOf(rows[i], col, ";", x)
  {
    var data := DataRows(rows);
    assert forall i :: 1 <= i < |rows| ==> rows[i] == data[i - 1];
    var r := DistinctPieces(data, col, ";");
    if r.Ok? then
      assert forall x :: x in r.value <==> exists i :: 1 <= i < |rows| && PieceOf(rows[i], col, ";", x) by {
        forall x
          ensures x in r.value <==> exists i :: 1 <= i < |rows| && PieceOf(rows[i], col, ";", x)
        {
          if x in r.value {
            var k :| 0 <= k < |data| && PieceOf(data[k], col, ";", x);
            assert PieceOf(rows[k + 1], col, ";", x);
          }
          if exists i :: 1 <= i < |rows| && PieceOf(rows[i], col, ";", x) {
            var i :| 1 <= i < |rows| && PieceOf(rows[i], col, ";", x);
            assert PieceOf(data[i - 1], col, ";", x);
          }
        }
      }
      r
    else r
  }

  /** The day loop: day i - 1 is built from row i, for i from 1 to 6. */
  function PlanDays(rows: seq<seq<Cell>>): (r: Result<seq<DayPlan>>)
    requires |rows| >= 7
    ensures r.Ok? <==> forall i :: 1 <= i <= 6 ==> CellAt(rows[i], 1).Str? && CellAt(rows[i], 2).Str?
    ensures r.Ok? ==> |r.value| == 6
    ensures r.Ok? ==> forall i :: 1 <= i <= 6 ==> DayFrom(rows[i]) == Ok(r.value[i - 1])
  {
    var dayRows := rows[1..7];
    assert forall i :: 1 <= i <= 6 ==> rows[i] == dayRows[i - 1];
    MapAll(dayRows, DayFrom)
  }

  /** The plan of a planner sheet. The coach's name and gym come from two
      single cells read outside the table, and `now` is the ISO timestamp
      of the moment of export. */
  function AssemblePlan(rows: seq<seq<Cell>>, coachName: Cell, gymName: Cell, now: string): (r: Result<Plan>)
    requires |rows| >= 7
    ensures r.Ok? <==>
              && (forall i :: 1 <= i < |rows| ==> CellAt(rows[i], 9).Str? && CellAt(rows[i], 10).Str? && CellAt(rows[i], 12).Str?)
              && (forall i :: 1 <= i <= 6 ==> CellAt(rows[i], 1).Str? && CellAt(rows[i], 2).Str?)
    // exactly six days, day i - 1 built from row i
    ensures r.Ok? ==> |r.value.days| == 6
    ensures r.Ok? ==> forall i :: 1 <= i <= 6 ==> DayFrom(rows[i]) == Ok(r.value.days[i - 1])
    // plan-wide scalars from row 1
    ensures r.Ok? ==> r.value.goal == CellAt(rows[1], 6) && r.value.fitnessLevel == CellAt(rows[1], 7)
                      && r.value.daysPerWeek == CellAt(rows[1], 8) && r.value.duration == CellAt(rows[1], 11)
    // plan-wide sets over every row below the header
    ensures r.Ok? ==> NoDups(r.value.equipment) && NoDups(r.value.focusAreas) && NoDups(r.value.preferences)
    ensures r.Ok? ==> forall x :: x in r.value.equipment <==> exists i :: 1 <= i < |rows| && PieceOf(rows[i], 9, ";", x)
    ensures r.Ok? ==> forall x :: x in r.value.focusAreas <==> exists i :: 1 <= i < |rows| && PieceOf(rows[i], 10, ";", x)
    ensures r.Ok? ==> forall x :: x in r.value.preferences <==> exists i :: 1 <= i < |rows| && PieceOf(rows[i], 12, ";", x)
    ensures r.Ok? ==> r.value.coach == Coach(coachName, gymName) && r.value.createdDate == DatePart(now)
  {
    var equipment :- PlanSet(rows, 9);
    var focusAreas :- PlanSet(rows, 10);
    var preferences :- PlanSet(rows, 12);
    var days :- PlanDays(rows);
    Ok(Plan(days, CellAt(rows[1], 6), CellAt(rows[1], 7), CellAt(rows[1], 8), equipment, focusAreas,
            CellAt(rows[1], 11), preferences, Coach(coachName, gymName), DatePart(now)))
  }
}
